=== FILE: README.md ===
# HTTP/3 frame encoder and control-stream validation, modelled in Dafny

This project models the core of netty's HTTP/3 codec (`io.netty.incubator.codec.http3`), in three parts:

- **Outbound frame encoder (`Http3FrameEncoder`).**
  - Each of the seven known frame kinds becomes its type code as a QUIC variable-length integer, followed by a kind-specific body.
  - Any other message fails with `UnsupportedOperationException`.
  - A value outside the varint range fails with `IllegalArgumentException`.
  - The varint writer (`numBytesForVariableLengthInteger` and `writeVariableLengthInteger`) is modelled byte for byte. That includes the OR of the width prefix into the first byte.
- **Inbound frame-type gate (`Http3FrameTypeValidationHandler`).** It passes frames of one configured stream kind and rejects the rest with `H3_FRAME_UNEXPECTED`.
- **Control-stream inbound handler (`Http3ControlStreamInboundHandler`).** It is modelled as a pure step function over an explicit state, using the behaviour its test pins down:
  - SETTINGS must come first;
  - GOAWAY ids never increase, and a client accepts only request-stream ids;
  - MAX_PUSH_ID is for servers only and never decreases;
  - accepted frames are forwarded or consumed, depending on how the handler was built.

Modules:

| file | module | contents |
|---|---|---|
| `wrappers.dfy` | `Wrappers` | `Option` and `Result` |
| `errors.dfy` | `Http3Errors` | the `H3_*` error codes the handlers raise, and the two exceptions the encoder throws |
| `varint.dfy` | `Varint` | varint width choice, the writer as written, a reference decoder (section 16 of RFC 9000), the corrected writer |
| `frames.dfy` | `Frames` | the frame kinds, their type codes (section 7.2 of RFC 9114), the stream kinds each is declared for |
| `frame_encoder.dfy` | `FrameEncoder` | `write` and the `write*Frame` methods, a reference parser for the layout they produce, round trips |
| `type_validation.dfy` | `TypeValidation` | the generic gate |
| `control_stream.dfy` | `ControlStream` | the control-stream step function, runs over frame sequences, the test scenarios |

Representation choices:

- Bytes are the integer newtype `Varint.byte` (0..255).
- Java's `|` on a byte is `Varint.BitOr`, a bit-by-bit OR on naturals.
- The decoder reads the prefix as `first / 64` and the low six bits as `first % 64`.
- Java `long` values are naturals. Negative values are outside the model's domain (see "## Left out").

How the code relates to the standards it follows:

- **1-byte varints.** Section 16 of RFC 9000 puts at most 63 in a 1-byte varint. The code admits 64 (see Findings).
- **Length fields.** Section 7.1 of RFC 9114 lays out every frame as Type, Length, Payload. The code writes a Length field only for DATA. CANCEL_PUSH, SETTINGS, GOAWAY and MAX_PUSH_ID go out as the type followed directly by their fields, and HEADERS and PUSH_PROMISE as the type alone.
- **Unknown frames.** Section 9 of RFC 9114 lets endpoints exchange frame types it does not define. The encoder has no path for them: any other message fails with `UnsupportedOperationException`.
- **Before SETTINGS.** Section 6.2.1 of RFC 9114 makes any first frame on the control stream other than SETTINGS `H3_MISSING_SETTINGS`. The handler first applies the frame-type gate it inherits, so a frame that is not a control-stream frame is `H3_FRAME_UNEXPECTED` in every state (test lines 74-77).
- **GOAWAY direction.** Under sections 5.2 and 7.2.6 of RFC 9114, a server's GOAWAY names a client-initiated bidirectional stream, i.e. an id that is a multiple of 4. A client must treat any other id as `H3_ID_ERROR`. The handler's test (lines 125-136) instead rejects GOAWAY(3) at a client with `H3_FRAME_UNEXPECTED` and accepts it at a server. The model follows the test (`ControlStream.GoAwayRule`).

## Model

| member | source | states |
|---|---|---|
| Varint.NumBytes | src/main/java/io/netty/incubator/codec/http3/Http3FrameEncoder.java:149-163 | succeeds exactly up to 2^62-1, otherwise IllegalArgument; always picks 1, 2, 4 or 8; the width is the minimal one for every value except 64, which gets 1 byte although 6 value bits cannot hold it |
| Varint.EncodeWidth | src/main/java/io/netty/incubator/codec/http3/Http3FrameEncoder.java:115-130 | for a value that fits the width: w bytes, the first byte's top two bits are the width's prefix, and the bytes with the prefix cleared are the value big-endian |
| Varint.Encode | src/main/java/io/netty/incubator/codec/http3/Http3FrameEncoder.java:112-134 | succeeds exactly for values up to 2^62-1, fails with IllegalArgument above, and emits as many bytes as the chosen width |
| Varint.EncodeLayout | src/main/java/io/netty/incubator/codec/http3/Http3FrameEncoder.java:115-130 | for every value but 64, the top two bits of the first byte announce the chosen width and the remaining bits read back as the value |
| Varint.Write | src/main/java/io/netty/incubator/codec/http3/Http3FrameEncoder.java:112-134 | appending to a buffer keeps the bytes already there and adds exactly the encoding, at the minimal width (63 as the 1-byte limit, see Findings); fails with IllegalArgument, writing nothing, when out of range |
| Varint.PrefixBits | src/main/java/io/netty/incubator/codec/http3/Http3FrameEncoder.java:121-129 | OR-ing 0x40, 0x80 or 0xc0 into a leading byte below 64 sets the top two bits to the prefix and keeps the low six |
| Varint.BitOrDisjoint | src/main/java/io/netty/incubator/codec/http3/Http3FrameEncoder.java:121-129 | OR into bits that are clear is addition, so the OR loses nothing |
| Varint.BigEndianLeadingByte | src/main/java/io/netty/incubator/codec/http3/Http3FrameEncoder.java:119-129 | a value below 2^(8w-2) written big-endian in w bytes has a leading byte below 64 |
| Varint.FromBigEndianOfBigEndian | src/main/java/io/netty/incubator/codec/http3/Http3FrameEncoder.java:117-128 | the narrowing casts and big-endian writes keep every value that fits the byte count |
| Varint.DecodeEncodeWidth | src/main/java/io/netty/incubator/codec/http3/Http3FrameEncoder.java:115-130 | at any width the value fits, the reference decoder reads back the value and width, whatever follows |
| Varint.EncodeWidthDecode | src/main/java/io/netty/incubator/codec/http3/Http3FrameEncoder.java:115-130 | conversely, every byte string the decoder accepts is the writer's encoding of what it reads |
| Varint.RoundTrip | src/main/java/io/netty/incubator/codec/http3/Http3FrameEncoder.java:112-163 | every value up to 2^62-1 except 64 decodes back to itself at the width the writer chose |
| Varint.SixtyFourMisread | src/main/java/io/netty/incubator/codec/http3/Http3FrameEncoder.java:150-151 | 64 is written as the single byte 0x40; a decoder takes it for a truncated 2-byte varint, or for 0 when a zero byte follows |
| Varint.SixtyFourNeverRoundTrips | src/main/java/io/netty/incubator/codec/http3/Http3FrameEncoder.java:150-151 | the encoding of 64 is never read back at its own width of 1: alone it is truncated, and otherwise the decoder swallows the next byte as a 2-byte varint and reads that byte as the value (64 only when it is 0x40) |
| Varint.EncodeCanonical | src/main/java/io/netty/incubator/codec/http3/Http3FrameEncoder.java:149-163 | with 63 as the 1-byte limit, every value in range gets its minimal width |
| Varint.CanonicalRoundTrip | src/main/java/io/netty/incubator/codec/http3/Http3FrameEncoder.java:149-163 | the corrected writer round-trips on the whole range, 64 included |
| Varint.CanonicalAgreesExceptSixtyFour | src/main/java/io/netty/incubator/codec/http3/Http3FrameEncoder.java:150 | the corrected and the as-written writers differ on 64 alone, where the corrected one writes 0x40 0x40 |
| Frames.TypeCode | src/main/java/io/netty/incubator/codec/http3/Http3FrameEncoder.java:50-102 | each known kind's code is one of 0x0, 0x1, 0x3, 0x4, 0x5, 0x7, 0xd, all below 64 and so a single varint byte |
| Frames.TypeCodeTable | src/main/java/io/netty/incubator/codec/http3/Http3FrameEncoder.java:50-102 | DATA 0x0, HEADERS 0x1, CANCEL_PUSH 0x3, SETTINGS 0x4, PUSH_PROMISE 0x5, GOAWAY 0x7, MAX_PUSH_ID 0xd, as each `write*Frame` writes first |
| Frames.TypeCodeIdentifiesKind | src/main/java/io/netty/incubator/codec/http3/Http3FrameEncoder.java:50-102 | two known frames share a type code exactly when they are of the same kind |
| FrameEncoder.WriteHeaders | src/main/java/io/netty/incubator/codec/http3/Http3FrameEncoder.java:136-138 | the header block writer is a stub: the buffer comes back unchanged |
| FrameEncoder.Encode | src/main/java/io/netty/incubator/codec/http3/Http3FrameEncoder.java:27-45 | succeeds exactly for the seven known kinds with every varint in range; other messages fail UnsupportedOperation, out-of-range values IllegalArgument; the output starts with the kind's type code; varints are written with the corrected 1-byte limit |
| FrameEncoder.DataLayout | src/main/java/io/netty/incubator/codec/http3/Http3FrameEncoder.java:47-54 | DATA is 0x00, the payload length as a varint, then the payload unchanged |
| FrameEncoder.HeaderFramesAreTypeOnly | src/main/java/io/netty/incubator/codec/http3/Http3FrameEncoder.java:56-62 | HEADERS (and PUSH_PROMISE, lines 83-89) encode as the type byte alone, since `writeHeaders` writes nothing |
| FrameEncoder.IdFrameLayout | src/main/java/io/netty/incubator/codec/http3/Http3FrameEncoder.java:64-105 | CANCEL_PUSH, GOAWAY and MAX_PUSH_ID are the type code then the id varint, with no Length field |
| FrameEncoder.WriteSettings | src/main/java/io/netty/incubator/codec/http3/Http3FrameEncoder.java:76-79 | the settings loop succeeds exactly when every key and value is in range, fails IllegalArgument otherwise, and keeps what was written before it |
| FrameEncoder.WriteSettingsAppends | src/main/java/io/netty/incubator/codec/http3/Http3FrameEncoder.java:76-79 | the loop appends key then value varint for each entry, in iteration order |
| FrameEncoder.SettingsLayout | src/main/java/io/netty/incubator/codec/http3/Http3FrameEncoder.java:72-81 | SETTINGS is 0x04 followed by the key/value varints, with no Length field |
| FrameEncoder.SettingsBodyRoundTrip | src/main/java/io/netty/incubator/codec/http3/Http3FrameEncoder.java:76-79 | the key/value body parses back to the same entries, in order |
| FrameEncoder.RoundTripData | src/main/java/io/netty/incubator/codec/http3/Http3FrameEncoder.java:47-54 | a DATA frame parses back to the same payload |
| FrameEncoder.RoundTripId | src/main/java/io/netty/incubator/codec/http3/Http3FrameEncoder.java:64-105 | CANCEL_PUSH, GOAWAY and MAX_PUSH_ID parse back to the same kind and id |
| FrameEncoder.RoundTripSettings | src/main/java/io/netty/incubator/codec/http3/Http3FrameEncoder.java:72-81 | a SETTINGS frame parses back to the same entries, in order |
| FrameEncoder.RoundTripHeaderFrame | src/main/java/io/netty/incubator/codec/http3/Http3FrameEncoder.java:56-62 | HEADERS and PUSH_PROMISE parse back as the same kind with the header block and push id erased |
| FrameEncoder.RoundTripFrame | src/main/java/io/netty/incubator/codec/http3/Http3FrameEncoder.java:27-45 | every frame the encoder accepts parses back to itself, less the parts the encoder never writes |
| FrameEncoder.GoAwaySixtyFourAsWritten | src/main/java/io/netty/incubator/codec/http3/Http3FrameEncoder.java:91-97 | with the writer as written, GOAWAY(64) goes out as 0x07 0x40, which does not parse as a frame |
| TypeValidation.Validate | src/test/java/io/netty/incubator/codec/http3/Http3FrameTypeValidationHandlerTest.java:25-28 | an accepted frame comes out unchanged; a rejected one is H3_FRAME_UNEXPECTED |
| TypeValidation.VerdictDependsOnlyOnKinds | src/test/java/io/netty/incubator/codec/http3/Http3FrameTypeValidationHandlerTest.java:27 | the verdict is a function of the frame's declared stream kinds alone |
| TypeValidation.RequestStreamGate | src/test/java/io/netty/incubator/codec/http3/Http3FrameTypeValidationHandlerTest.java:30-38 | a request-stream gate admits exactly DATA, HEADERS, PUSH_PROMISE and other request-stream frames; a control-stream or push-stream frame is rejected |
| TypeValidation.ControlStreamGate | src/test/java/io/netty/incubator/codec/http3/Http3ControlStreamInboundHandlerTest.java:68-77 | a control-stream gate admits exactly SETTINGS, GOAWAY, MAX_PUSH_ID, CANCEL_PUSH and other control-stream frames |
| ControlStream.Deliver | src/test/java/io/netty/incubator/codec/http3/Http3ControlStreamInboundHandlerTest.java:181-188 | an accepted frame is forwarded unchanged exactly when the handler forwards, and consumed otherwise |
| ControlStream.Step | src/test/java/io/netty/incubator/codec/http3/Http3ControlStreamInboundHandlerTest.java:79-203 | non-control frames are unexpected in any state; before SETTINGS anything else is missing settings; accepting keeps role and mode, records SETTINGS, moves ids only in the allowed direction, records the accepted GOAWAY or MAX_PUSH_ID, and leaves the other id record, and both records for any other frame, as they were |
| ControlStream.GoAwayRule | src/test/java/io/netty/incubator/codec/http3/Http3ControlStreamInboundHandlerTest.java:106-136 | after SETTINGS, GOAWAY is accepted exactly when its id is a request-stream id (or the receiver is a server) and does not exceed the last one; an increase alone is H3_ID_ERROR, a wrong direction alone H3_FRAME_UNEXPECTED |
| ControlStream.MaxPushIdRule | src/test/java/io/netty/incubator/codec/http3/Http3ControlStreamInboundHandlerTest.java:138-163 | a client rejects MAX_PUSH_ID as unexpected; a server accepts it exactly when it does not decrease, otherwise H3_ID_ERROR |
| ControlStream.OtherControlFramesAccepted | src/test/java/io/netty/incubator/codec/http3/Http3ControlStreamInboundHandlerTest.java:68-72 | after SETTINGS, CANCEL_PUSH is accepted and leaves the id bookkeeping alone |
| ControlStream.RepeatedSettingsRule | src/test/java/io/netty/incubator/codec/http3/Http3ControlStreamInboundHandlerTest.java:70 | a SETTINGS after the first is accepted, with the state unchanged, under the accepting choice, and is H3_FRAME_UNEXPECTED under the rejecting one; not pinned by the tests, see "## Left out" |
| ControlStream.RepeatedSettingsOnlyDecidesSettings | src/test/java/io/netty/incubator/codec/http3/Http3ControlStreamInboundHandlerTest.java:70 | the two treatments of a repeated SETTINGS give the same reaction to every other frame and to the opening SETTINGS; not pinned by the tests, see "## Left out" |
| ControlStream.GoAwayOrderOnlyPicksTheCode | src/test/java/io/netty/incubator/codec/http3/Http3ControlStreamInboundHandlerTest.java:115-136 | the two possible orders of the GOAWAY checks differ only for an id that breaks both rules, and then only in the error code |
| ControlStream.ModeDoesNotAffectValidation | src/test/java/io/netty/incubator/codec/http3/Http3ControlStreamInboundHandlerTest.java:181-203 | forwarding or consuming never changes acceptance, the error code, or the bookkeeping |
| ControlStream.Run | src/test/java/io/netty/incubator/codec/http3/Http3ControlStreamInboundHandlerTest.java:165-203 | over a whole frame sequence: role and mode are kept, ids move one way, a client never records MAX_PUSH_ID, a consuming handler delivers nothing |
| ControlStream.ForwardDeliversEverything | src/test/java/io/netty/incubator/codec/http3/Http3ControlStreamInboundHandlerTest.java:181-188 | a forwarding handler with no error delivers every frame, unchanged and in order |
| ControlStream.ForwardDeliversPrefix | src/test/java/io/netty/incubator/codec/http3/Http3ControlStreamInboundHandlerTest.java:190-203 | what a forwarding handler delivers is always a prefix of its input |
| ControlStream.ErrorWithholdsAFrame | src/test/java/io/netty/incubator/codec/http3/Http3ControlStreamInboundHandlerTest.java:190-203 | a run that ends in an error, in either mode, delivers fewer frames than arrived |
| ControlStream.ForwardStopsAtTheRejectedFrame | src/test/java/io/netty/incubator/codec/http3/Http3ControlStreamInboundHandlerTest.java:181-203 | a forwarding run that ends in an error delivers exactly the frames before the rejected one: they run without error, and the next frame is rejected with the code that closed the connection, so the rejected frame is never delivered |
| ControlStream.RunModeIndependent | src/test/java/io/netty/incubator/codec/http3/Http3ControlStreamInboundHandlerTest.java:52-61 | runs in the two modes end with the same error and the same bookkeeping |
| ControlStream.FirstFrameMustBeSettings | src/test/java/io/netty/incubator/codec/http3/Http3ControlStreamInboundHandlerTest.java:94-104 | on a fresh handler, a first frame other than SETTINGS ends the run at once, delivering nothing: missing settings for a control frame, unexpected for any other |
| ControlStream.MissingSettingsScenarios | src/test/java/io/netty/incubator/codec/http3/Http3ControlStreamInboundHandlerTest.java:79-92 | a first GOAWAY(0), MAX_PUSH_ID(0) or CANCEL_PUSH(0) is H3_MISSING_SETTINGS in every role and mode |
| ControlStream.SettingsScenario | src/test/java/io/netty/incubator/codec/http3/Http3ControlStreamInboundHandlerTest.java:165-179 | the opening SETTINGS is forwarded as is, or consumed, and opens the stream |
| ControlStream.ValidFramesSteps | src/test/java/io/netty/incubator/codec/http3/Http3ControlStreamInboundHandlerTest.java:63-72 | a forwarding server handler forwards SETTINGS, GOAWAY(0), MAX_PUSH_ID(0), CANCEL_PUSH(0) one after the other |
| ControlStream.ValidFramesScenario | src/test/java/io/netty/incubator/codec/http3/Http3ControlStreamInboundHandlerTest.java:63-72 | fed in that order, the four valid frames are all delivered unchanged |
| ControlStream.InvalidFramesScenario | src/test/java/io/netty/incubator/codec/http3/Http3ControlStreamInboundHandlerTest.java:74-77 | request-stream and push-stream frames are H3_FRAME_UNEXPECTED in any state |
| ControlStream.RepeatedGoAwayScenario | src/test/java/io/netty/incubator/codec/http3/Http3ControlStreamInboundHandlerTest.java:106-113 | GOAWAY(0) twice is accepted, in every role and mode |
| ControlStream.IncreasingGoAwayScenario | src/test/java/io/netty/incubator/codec/http3/Http3ControlStreamInboundHandlerTest.java:115-123 | GOAWAY(0) then GOAWAY(4) is H3_ID_ERROR |
| ControlStream.NonRequestStreamGoAwayScenario | src/test/java/io/netty/incubator/codec/http3/Http3ControlStreamInboundHandlerTest.java:125-136 | GOAWAY(3) is accepted by a server and unexpected at a client |
| ControlStream.MaxPushIdScenario | src/test/java/io/netty/incubator/codec/http3/Http3ControlStreamInboundHandlerTest.java:138-150 | MAX_PUSH_ID(0) then (4) is accepted by a server and unexpected at a client |
| ControlStream.DecreasingMaxPushIdScenario | src/test/java/io/netty/incubator/codec/http3/Http3ControlStreamInboundHandlerTest.java:152-163 | at a server, MAX_PUSH_ID(4) then (0) is H3_ID_ERROR |

## Left out

- FrameEncoder.Encode: writes every varint through the corrected writer `Varint.Write`, so a varint of 64 takes 2 bytes where the source writes the single byte 0x40 (see Findings). The writer as written is `Varint.Encode`.
- Buffer allocation, reference counting and `release`, the wrapped zero-copy DATA buffer, and promise completion are not modelled. The encoder returns the bytes it would write, or the exception it would raise.
- `writeHeaders` writes nothing in the source, so there is no QPACK. HEADERS and PUSH_PROMISE carry no header block, and PUSH_PROMISE's push id is never written. `FrameEncoder.Erase` states what is lost.
- Closing the parent QUIC connection is not modelled. A rejection returns the error code that the connection is closed with.
- Negative `long` values are not modelled: ids, keys and values are naturals. The source does not reject them. A negative value passes the `value <= 64` test (Http3FrameEncoder.java:150) and goes out as the single byte `(byte) value`, so -1 becomes 0xff, whose prefix 11 announces an 8-byte varint.
- The DATA payload length is a Java `int` in the source. The model admits any length and checks it against the varint range only.
- ControlStream.Step: the handler's source is not part of this model, so the order of its two GOAWAY checks (direction, then ordering, or the reverse) is not known. It is a parameter, `GoAwayOrder`, and every property is proved for both orders. Both open points travel together as `ControlStream.Choices`.
- ControlStream.Step: the tests never send a second SETTINGS, so what the handler does with one is not known. Section 7.2.4 of RFC 9114 makes it `H3_FRAME_UNEXPECTED`. It is a parameter, `RepeatedSettings`, and every property is proved for both accepting and rejecting it.
- The stream kinds each frame kind is declared for (`Frames.StreamTypes`) come from the codec's marker interfaces. Those interfaces are not part of this model, so the assignment follows section 7.2 of RFC 9114.
- What the handler does with frames that arrive after a rejection is not modelled. The handler's source is not part of this model and the tests never send one. Since a rejection closes the connection with its code, `ControlStream.Run` stops at the first rejection and processes nothing after it.

## Findings

| source | as written | input that shows it | evidently intended | confidence | as-written member | corrected member |
|---|---|---|---|---|---|---|
| src/main/java/io/netty/incubator/codec/http3/Http3FrameEncoder.java:150 | `value <= 64` picks a 1-byte varint for 64 | 64 is written as the single byte 0x40, whose top bits 01 announce a 2-byte varint; GOAWAY(64) goes out as 0x07 0x40 | `value <= 63`, the 1-byte limit of section 16 of RFC 9000 | not executed | Varint.SixtyFourMisread | Varint.EncodeCanonical |

The writer as written is `Varint.NumBytes` with `Varint.Encode`. Its round trip `Varint.RoundTrip` holds for every value except 64, and `FrameEncoder.GoAwaySixtyFourAsWritten` shows the defect reaching the wire.

The corrected writer is `Varint.EncodeCanonical`:
- `Varint.CanonicalRoundTrip` proves it round-trips on the whole range.
- `Varint.CanonicalAgreesExceptSixtyFour` proves it differs from the as-written writer only at 64.

The frame encoder writes through the corrected writer (`Varint.Write`), so its round trips hold without exception.

=== FILE: control_stream.dfy ===
/** The inbound handler of the HTTP/3 control stream
    (`Http3ControlStreamInboundHandler`) as a pure step function.

    It is a frame-type gate for control-stream frames with three rules on top:
    SETTINGS must come first (section 6.2.1 of RFC 9114), GOAWAY ids never
    increase (section 5.2), and MAX_PUSH_ID is received only by a server and
    never decreases (section 7.2.7). An accepted frame is either forwarded
    downstream unchanged or consumed, depending on how the handler was built;
    a rejected frame is never forwarded, and the connection is closed with the
    returned error code. */
module ControlStream {
  import opened Wrappers
  import opened Http3Errors
  import opened Frames
  import TypeValidation

  datatype Role = Client | Server

  /** Which of the two GOAWAY checks runs first. */
  datatype GoAwayOrder = DirectionFirst | OrderingFirst

  /** What a SETTINGS after the first one meets: acceptance, or rejection with
      `H3_FRAME_UNEXPECTED` as sections 6.2.1 and 7.2.4 of RFC 9114 require. */
  datatype RepeatedSettings = AcceptRepeated | RejectRepeated

  /** The two points of the handler's behaviour that its observable
      behaviour does not fix. The model keeps every combination open and
      proves each property for all of them. */
  datatype Choices = Choices(goAwayOrder: GoAwayOrder, repeatedSettings: RepeatedSettings)

  /** `forward` is whether the handler was given a downstream handler for
      control frames. */
  datatype State = State(
    role: Role,
    forward: bool,
    settingsSeen: bool,
    lastGoAway: Option<nat>,
    lastMaxPushId: Option<nat>)

  /** A handler as constructed, before any frame arrived. */
  function Fresh(role: Role, forward: bool): State {
    State(role, forward, false, None, None)
  }

  datatype Reaction =
    | Forwarded(frame: Frame, next: State)
    | Consumed(next: State)
    | Rejected(code: H3ErrorCode)
  {
    predicate Accepted() {
      !Rejected?
    }
  }

  const ControlGate := TypeValidation.Gate(ControlStream)

  /** A GOAWAY id a client may receive: it names a client-initiated
      bidirectional stream, that is a request stream (section 2.1 of
      RFC 9000: such ids are multiples of 4). */
  predicate IsRequestStreamId(id: nat) {
    id % 4 == 0
  }

  /** A GOAWAY id that goes up compared with the last one accepted. */
  predicate GoAwayIncreases(s: State, id: nat) {
    s.lastGoAway.Some? && id > s.lastGoAway.value
  }

  /** A MAX_PUSH_ID that goes down compared with the last one accepted. */
  predicate MaxPushIdDecreases(s: State, id: nat) {
    s.lastMaxPushId.Some? && id < s.lastMaxPushId.value
  }

  /** An accepted frame goes downstream or is released, as configured. */
  function Deliver(s: State, f: Frame, next: State): (r: Reaction)
    ensures r.Accepted() && r.next == next
    ensures r.Forwarded? <==> s.forward
    ensures r.Forwarded? ==> r.frame == f
  {
    if s.forward then Forwarded(f, next) else Consumed(next)
  }

  /** Id bookkeeping only ever moves in the allowed direction. */
  predicate IdsMoveMonotonically(s: State, t: State) {
    && (s.lastGoAway.Some? ==> t.lastGoAway.Some? && t.lastGoAway.value <= s.lastGoAway.value)
    && (s.lastMaxPushId.Some? ==> t.lastMaxPushId.Some? && t.lastMaxPushId.value >= s.lastMaxPushId.value)
  }

  /** One inbound frame. */
  function Step(c: Choices, s: State, f: Frame): (r: Reaction)
    // a frame that is not a control-stream frame is unexpected, in any state
    ensures ControlStream !in StreamTypes(f) ==> r == Rejected(FrameUnexpected)
    // before SETTINGS, every other control-stream frame is missing settings
    ensures ControlStream in StreamTypes(f) && !s.settingsSeen && !f.Settings? ==> r == Rejected(MissingSettings)
    // the first SETTINGS is always accepted
    ensures f.Settings? && !s.settingsSeen ==> r.Accepted()
    // an accepted frame is delivered unchanged exactly when forwarding
    ensures r.Accepted() ==> (r.Forwarded? <==> s.forward)
    ensures r.Forwarded? ==> r.frame == f
    // acceptance keeps the configuration, records settings, moves ids one way
    ensures r.Accepted() ==> r.next.role == s.role && r.next.forward == s.forward
    ensures r.Accepted() ==> r.next.settingsSeen
    ensures r.Accepted() ==> IdsMoveMonotonically(s, r.next)
    // a client never accepts MAX_PUSH_ID, so never records one
    ensures r.Accepted() && s.role == Client ==> r.next.lastMaxPushId == s.lastMaxPushId
    // an accepted GOAWAY or MAX_PUSH_ID becomes the last one seen
    ensures r.Accepted() && f.GoAway? ==> r.next.lastGoAway == Some(f.id)
    ensures r.Accepted() && f.MaxPushId? ==> r.next.lastMaxPushId == Some(f.id)
    // and every other frame leaves that record alone
    ensures r.Accepted() && !f.GoAway? ==> r.next.lastGoAway == s.lastGoAway
    ensures r.Accepted() && !f.MaxPushId? ==> r.next.lastMaxPushId == s.lastMaxPushId
  {
    if TypeValidation.Validate(ControlGate, f).Failure? then
      Rejected(FrameUnexpected)
    else if !s.settingsSeen then
      if f.Settings? then Deliver(s, f, s.(settingsSeen := true)) else Rejected(MissingSettings)
    else
      match f
      case GoAway(id) =>
        var misdirected := s.role == Client && !IsRequestStreamId(id);
        var increases := GoAwayIncreases(s, id);
        if misdirected && (c.goAwayOrder == DirectionFirst || !increases) then Rejected(FrameUnexpected)
        else if increases then Rejected(IdError)
        else Deliver(s, f, s.(lastGoAway := Some(id)))
      case MaxPushId(id) =>
        if s.role == Client then Rejected(FrameUnexpected)
        else if MaxPushIdDecreases(s, id) then Rejected(IdError)
        else Deliver(s, f, s.(lastMaxPushId := Some(id)))
      case Settings(_) =>
        if c.repeatedSettings == RejectRepeated then Rejected(FrameUnexpected)
        else Deliver(s, f, s)
      case _ =>
        Deliver(s, f, s)
  }

  // ---------------------------------------------------------------------------
  // Per-frame rules

  /** After SETTINGS, GOAWAY is accepted exactly when its id is a request
      stream id (or the receiver is a server) and it does not exceed the last
      accepted one; it is rejected with `H3_ID_ERROR` when only the ordering
      rule is broken and with `H3_FRAME_UNEXPECTED` when only the direction
      rule is. Sections 5.2 and 7.2.6 of RFC 9114 ask for `H3_ID_ERROR` on a
      wrong-direction id too; the handler's test expects `H3_FRAME_UNEXPECTED`,
      and that is the code modelled here. */
  lemma GoAwayRule(c: Choices, s: State, id: nat)
    requires s.settingsSeen
    ensures var r := Step(c, s, GoAway(id));
      && (r.Accepted() <==> (s.role == Server || IsRequestStreamId(id)) && !GoAwayIncreases(s, id))
      && ((s.role == Server || IsRequestStreamId(id)) && GoAwayIncreases(s, id) ==> r == Rejected(IdError))
      && (s.role == Client && !IsRequestStreamId(id) && !GoAwayIncreases(s, id) ==> r == Rejected(FrameUnexpected))
  {
  }

  /** After SETTINGS, MAX_PUSH_ID is rejected by a client with
      `H3_FRAME_UNEXPECTED`; a server accepts it exactly when it does not go
      below the last accepted one, and otherwise rejects it with
      `H3_ID_ERROR`. */
  lemma MaxPushIdRule(c: Choices, s: State, id: nat)
    requires s.settingsSeen
    ensures s.role == Client ==> Step(c, s, MaxPushId(id)) == Rejected(FrameUnexpected)
    ensures s.role == Server ==> (Step(c, s, MaxPushId(id)).Accepted() <==> !MaxPushIdDecreases(s, id))
    ensures s.role == Server && MaxPushIdDecreases(s, id) ==> Step(c, s, MaxPushId(id)) == Rejected(IdError)
  {
  }

  /** After SETTINGS, CANCEL_PUSH is accepted with no change to the id
      bookkeeping. */
  lemma OtherControlFramesAccepted(c: Choices, s: State, id: nat)
    requires s.settingsSeen
    ensures Step(c, s, CancelPush(id)).Accepted() && Step(c, s, CancelPush(id)).next == s
  {
  }

  /** After SETTINGS, a further SETTINGS is accepted exactly when the open
      choice says so, leaving the state as it was; otherwise it is
      `H3_FRAME_UNEXPECTED`. */
  lemma RepeatedSettingsRule(c: Choices, s: State, entries: seq<Setting>)
    requires s.settingsSeen
    ensures var r := Step(c, s, Settings(entries));
      && (r.Accepted() <==> c.repeatedSettings == AcceptRepeated)
      && (r.Accepted() ==> r.next == s)
      && (r.Rejected? ==> r.code == FrameUnexpected)
  {
  }

  /** The unfixed check order matters only for a GOAWAY that breaks both the
      direction rule and the ordering rule: then both orders reject, and only
      the error code differs. */
  lemma GoAwayOrderOnlyPicksTheCode(c: Choices, s: State, f: Frame)
    ensures var d := c.(goAwayOrder := DirectionFirst);
            var o := c.(goAwayOrder := OrderingFirst);
      Step(d, s, f) != Step(o, s, f) ==>
      && f.GoAway? && s.settingsSeen && s.role == Client
      && !IsRequestStreamId(f.id) && GoAwayIncreases(s, f.id)
      && Step(d, s, f) == Rejected(FrameUnexpected)
      && Step(o, s, f) == Rejected(IdError)
  {
  }

  /** The unfixed treatment of a repeated SETTINGS matters for that frame
      alone: every other frame, and a SETTINGS that opens the stream, meets
      the same reaction either way. */
  lemma RepeatedSettingsOnlyDecidesSettings(c: Choices, s: State, f: Frame)
    ensures var a := c.(repeatedSettings := AcceptRepeated);
            var j := c.(repeatedSettings := RejectRepeated);
      Step(a, s, f) != Step(j, s, f) ==>
      && f.Settings? && s.settingsSeen
      && Step(a, s, f).Accepted()
      && Step(j, s, f) == Rejected(FrameUnexpected)
  {
  }

  /** Forwarding and consuming validate alike: flipping the mode never
      changes whether a frame is accepted, the error code, or the bookkeeping
      (other than the mode itself). */
  lemma ModeDoesNotAffectValidation(c: Choices, s: State, f: Frame)
    ensures var r1 := Step(c, s, f);
            var r2 := Step(c, s.(forward := !s.forward), f);
      && (r1.Accepted() <==> r2.Accepted())
      && (r1.Rejected? ==> r1 == r2)
      && (r1.Accepted() ==> r2.next == r1.next.(forward := !s.forward))
  {
  }

  // ---------------------------------------------------------------------------
  // A stream of frames

  /** What a sequence of inbound frames leads to: the frames delivered
      downstream, the state after the last accepted frame, and the error that
      closed the connection, if any. */
  datatype Outcome = Outcome(delivered: seq<Frame>, final: State, error: Option<H3ErrorCode>)

  /** Feeds frames in arrival order; the first rejection closes the stream
      and nothing after it is processed. */
  function Run(c: Choices, s: State, frames: seq<Frame>): (o: Outcome)
    decreases |frames|
    ensures o.final.role == s.role && o.final.forward == s.forward
    ensures IdsMoveMonotonically(s, o.final)
    ensures s.settingsSeen ==> o.final.settingsSeen
    ensures s.role == Client ==> o.final.lastMaxPushId == s.lastMaxPushId
    ensures !s.forward ==> o.delivered == []
    ensures |o.delivered| <= |frames|
  {
    if frames == [] then Outcome([], s, None)
    else
      match Step(c, s, frames[0])
      case Rejected(code) => Outcome([], s, Some(code))
      case Forwarded(f, next) =>
        var rest := Run(c, next, frames[1..]);
        Outcome([f] + rest.delivered, rest.final, rest.error)
      case Consumed(next) =>
        Run(c, next, frames[1..])
  }

  /** With forwarding on and no error, every frame is delivered, unchanged
      and in order. */
  lemma {:induction false} ForwardDeliversEverything(c: Choices, s: State, frames: seq<Frame>)
    requires s.forward
    requires Run(c, s, frames).error.None?
    ensures Run(c, s, frames).delivered == frames
    decreases |frames|
  {
    if frames != [] {
      var r := Step(c, s, frames[0]);
      assert r.Accepted();
      assert r == Forwarded(frames[0], r.next);
      assert r.next.forward;
      assert Run(c, r.next, frames[1..]).error.None?;
      ForwardDeliversEverything(c, r.next, frames[1..]);
      ForwardedCons(c, s, frames[0], frames[1..], r.next);
      assert [frames[0]] + frames[1..] == frames;
    }
  }

  /** With forwarding on, what is delivered is always a prefix of the input:
      a rejected frame and everything after it is withheld. */
  lemma {:induction false} ForwardDeliversPrefix(c: Choices, s: State, frames: seq<Frame>)
    requires s.forward
    ensures var o := Run(c, s, frames);
      o.delivered == frames[..|o.delivered|]
    decreases |frames|
  {
    if frames != [] {
      var r := Step(c, s, frames[0]);
      if r.Accepted() {
        ForwardDeliversPrefix(c, r.next, frames[1..]);
      }
    }
  }

  /** A rejected frame is never delivered: in a run that ends in an error,
      fewer frames are delivered than arrived. */
  lemma {:induction false} ErrorWithholdsAFrame(c: Choices, s: State, frames: seq<Frame>)
    requires Run(c, s, frames).error.Some?
    ensures |Run(c, s, frames).delivered| < |frames|
    decreases |frames|
  {
    var r := Step(c, s, frames[0]);
    if r.Accepted() {
      ErrorWithholdsAFrame(c, r.next, frames[1..]);
    }
  }

  /** With forwarding on, a run that ends in an error delivers exactly the
      frames before the rejected one: those frames alone run without error,
      and the next frame, the first one withheld, is rejected with the code
      that closed the connection. */
  lemma {:induction false} ForwardStopsAtTheRejectedFrame(c: Choices, s: State, frames: seq<Frame>)
    requires s.forward
    requires Run(c, s, frames).error.Some?
    ensures var o := Run(c, s, frames);
            var k := |o.delivered|;
      && k < |frames|
      && o.delivered == frames[..k]
      && Run(c, s, frames[..k]).error.None?
      && Step(c, Run(c, s, frames[..k]).final, frames[k]) == Rejected(o.error.value)
    decreases |frames|
  {
    var o := Run(c, s, frames);
    var r := Step(c, s, frames[0]);
    if r.Rejected? {
      assert o.delivered == [];
      assert frames[..0] == [];
    } else {
      assert r == Forwarded(frames[0], r.next);
      var tail := frames[1..];
      var o' := Run(c, r.next, tail);
      assert o == Outcome([frames[0]] + o'.delivered, o'.final, o'.error);
      ForwardStopsAtTheRejectedFrame(c, r.next, tail);
      var k' := |o'.delivered|;
      var prefix := frames[..k' + 1];
      assert prefix[0] == frames[0] && prefix[1..] == tail[..k'];
      assert Run(c, s, prefix) == Outcome([frames[0]] + Run(c, r.next, tail[..k']).delivered,
                                          Run(c, r.next, tail[..k']).final, Run(c, r.next, tail[..k']).error);
      assert frames[k' + 1] == tail[k'];
      assert o.delivered == frames[..k' + 1] by {
        assert frames[..k' + 1] == [frames[0]] + tail[..k'];
      }
    }
  }

  /** Runs in the two modes validate alike: same error and same final
      bookkeeping. */
  lemma {:induction false} RunModeIndependent(c: Choices, s: State, frames: seq<Frame>)
    ensures var o1 := Run(c, s, frames);
            var o2 := Run(c, s.(forward := !s.forward), frames);
      && o1.error == o2.error
      && o2.final == o1.final.(forward := !s.forward)
    decreases |frames|
  {
    if frames != [] {
      ModeDoesNotAffectValidation(c, s, frames[0]);
      var r := Step(c, s, frames[0]);
      if r.Accepted() {
        RunModeIndependent(c, r.next, frames[1..]);
        assert r.next.(forward := !r.next.forward) == Step(c, s.(forward := !s.forward), frames[0]).next;
      }
    }
  }

  /** On a fresh handler, a first frame other than SETTINGS closes the
      connection: with `H3_MISSING_SETTINGS` for a control-stream frame, with
      `H3_FRAME_UNEXPECTED` for any other; nothing is delivered and nothing
      after it is processed. */
  lemma FirstFrameMustBeSettings(c: Choices, role: Role, forward: bool, frames: seq<Frame>)
    requires frames != [] && !frames[0].Settings?
    ensures var o := Run(c, Fresh(role, forward), frames);
      && o.delivered == []
      && o.final == Fresh(role, forward)
      && o.error == Some(if ControlStream in StreamTypes(frames[0]) then MissingSettings else FrameUnexpected)
  {
  }

  // ---------------------------------------------------------------------------
  // The scenarios of the handler's test, in every role and mode

  /** A first GOAWAY, MAX_PUSH_ID or CANCEL_PUSH is missing settings. */
  lemma MissingSettingsScenarios(c: Choices, role: Role, forward: bool)
    ensures Run(c, Fresh(role, forward), [GoAway(0)]).error == Some(MissingSettings)
    ensures Run(c, Fresh(role, forward), [MaxPushId(0)]).error == Some(MissingSettings)
    ensures Run(c, Fresh(role, forward), [CancelPush(0)]).error == Some(MissingSettings)
  {
    FirstFrameMustBeSettings(c, role, forward, [GoAway(0)]);
    FirstFrameMustBeSettings(c, role, forward, [MaxPushId(0)]);
    FirstFrameMustBeSettings(c, role, forward, [CancelPush(0)]);
  }

  /** The opening SETTINGS is forwarded as is, or consumed. */
  lemma SettingsScenario(c: Choices, role: Role, forward: bool)
    ensures Run(c, Fresh(role, forward), [Settings([])])
         == Outcome(if forward then [Settings([])] else [], Fresh(role, forward).(settingsSeen := true), None)
  {
    var s := Fresh(role, forward);
    assert Step(c, s, Settings([])).next == s.(settingsSeen := true);
    assert [Settings([])][1..] == [];
  }

  /** Each frame the validation test treats as valid, in turn, is forwarded by
      a server handler. */
  lemma ValidFramesSteps(c: Choices)
    ensures Step(c, State(Server, true, false, None, None), Settings([]))
         == Forwarded(Settings([]), State(Server, true, true, None, None))
    ensures Step(c, State(Server, true, true, None, None), GoAway(0))
         == Forwarded(GoAway(0), State(Server, true, true, Some(0), None))
    ensures Step(c, State(Server, true, true, Some(0), None), MaxPushId(0))
         == Forwarded(MaxPushId(0), State(Server, true, true, Some(0), Some(0)))
    ensures Step(c, State(Server, true, true, Some(0), Some(0)), CancelPush(0))
         == Forwarded(CancelPush(0), State(Server, true, true, Some(0), Some(0)))
  {
  }

  /** The frames the validation test treats as valid go through a forwarding
      server handler in c, each delivered unchanged. */
  lemma ValidFramesScenario(c: Choices)
    ensures var valid := [Settings([]), GoAway(0), MaxPushId(0), CancelPush(0)];
      Run(c, Fresh(Server, true), valid).delivered == valid
  {
    ValidFramesSteps(c);
    var s3 := State(Server, true, true, Some(0), Some(0));
    var t3: seq<Frame> := [CancelPush(0)];
    var t2 := [MaxPushId(0)] + t3;
    var t1 := [GoAway(0)] + t2;
    assert Run(c, s3, []).delivered == [];
    ForwardedCons(c, s3, CancelPush(0), [], s3);
    assert [CancelPush(0)] + [] == t3;
    ForwardedCons(c, State(Server, true, true, Some(0), None), MaxPushId(0), t3, s3);
    ForwardedCons(c, State(Server, true, true, None, None), GoAway(0), t2, State(Server, true, true, Some(0), None));
    ForwardedCons(c, Fresh(Server, true), Settings([]), t1, State(Server, true, true, None, None));
    assert [Settings([])] + t1 == [Settings([]), GoAway(0), MaxPushId(0), CancelPush(0)];
  }

  /** The request-stream and push-stream frames the validation test treats
      as invalid are unexpected in any state. */
  lemma InvalidFramesScenario(c: Choices, s: State)
    ensures Step(c, s, Other({RequestStream})) == Rejected(FrameUnexpected)
    ensures Step(c, s, Other({PushStream})) == Rejected(FrameUnexpected)
  {
  }

  /** Unrolls `Run` by one frame that is forwarded. */
  lemma ForwardedCons(c: Choices, s: State, f: Frame, rest: seq<Frame>, next: State)
    requires Step(c, s, f) == Forwarded(f, next)
    requires Run(c, next, rest).delivered == rest
    ensures Run(c, s, [f] + rest).delivered == [f] + rest
  {
    assert ([f] + rest)[1..] == rest;
  }

  /** The state every scenario below starts from: SETTINGS accepted. */
  function Opened(role: Role, forward: bool): State {
    State(role, forward, true, None, None)
  }

  lemma RepeatedGoAwayScenario(c: Choices, role: Role, forward: bool)
    ensures Run(c, Opened(role, forward), [GoAway(0), GoAway(0)]).error == None
  {
    var s := Opened(role, forward);
    var s1 := s.(lastGoAway := Some(0));
    assert Step(c, s, GoAway(0)).next == s1;
    assert Step(c, s1, GoAway(0)).next == s1;
    assert [GoAway(0), GoAway(0)][1..] == [GoAway(0)];
    assert [GoAway(0)][1..] == [];
  }

  lemma IncreasingGoAwayScenario(c: Choices, role: Role, forward: bool)
    ensures Run(c, Opened(role, forward), [GoAway(0), GoAway(4)]).error == Some(IdError)
  {
    var s := Opened(role, forward);
    var s1 := s.(lastGoAway := Some(0));
    assert Step(c, s, GoAway(0)).next == s1;
    assert Step(c, s1, GoAway(4)) == Rejected(IdError);
    assert [GoAway(0), GoAway(4)][1..] == [GoAway(4)];
  }

  lemma NonRequestStreamGoAwayScenario(c: Choices, role: Role, forward: bool)
    ensures Run(c, Opened(role, forward), [GoAway(3)]).error
         == (if role == Server then None else Some(FrameUnexpected))
  {
    assert [GoAway(3)][1..] == [];
  }

  lemma MaxPushIdScenario(c: Choices, role: Role, forward: bool)
    ensures Run(c, Opened(role, forward), [MaxPushId(0), MaxPushId(4)]).error
         == (if role == Server then None else Some(FrameUnexpected))
  {
    var s := Opened(role, forward);
    var s1 := s.(lastMaxPushId := Some(0));
    assert [MaxPushId(0), MaxPushId(4)][1..] == [MaxPushId(4)];
    assert [MaxPushId(4)][1..] == [];
    if role == Server {
      assert Step(c, s, MaxPushId(0)).next == s1;
      assert Step(c, s1, MaxPushId(4)).Accepted();
    }
  }

  lemma DecreasingMaxPushIdScenario(c: Choices, forward: bool)
    ensures Run(c, Opened(Server, forward), [MaxPushId(4), MaxPushId(0)]).error == Some(IdError)
  {
    var s := Opened(Server, forward);
    var s1 := s.(lastMaxPushId := Some(4));
    assert Step(c, s, MaxPushId(4)).next == s1;
    assert Step(c, s1, MaxPushId(0)) == Rejected(IdError);
    assert [MaxPushId(4), MaxPushId(0)][1..] == [MaxPushId(0)];
  }
}

=== FILE: errors.dfy ===
/** The failures this core can report. */
module Http3Errors {

  /** HTTP/3 application error codes (section 8.1 of RFC 9114) that the
      inbound handlers close the connection with. */
  datatype H3ErrorCode = FrameUnexpected | IdError | MissingSettings

  /** The exceptions the outbound encoder raises: `IllegalArgumentException`
      for a value outside the 62-bit varint range and
      `UnsupportedOperationException` for a message that is not one of the
      seven frame kinds it knows. */
  datatype EncodeError = IllegalArgument | UnsupportedOperation
}

=== FILE: frame_encoder.dfy ===
/** The outbound frame encoder (`Http3FrameEncoder`): a frame becomes its type
    code as a varint followed by a kind-specific body. Only DATA carries a
    Length field; CANCEL_PUSH, SETTINGS, GOAWAY and MAX_PUSH_ID are written
    without one, unlike the Type/Length/Payload layout of section 7.1 of
    RFC 9114. */
module FrameEncoder {
  import opened Wrappers
  import opened Http3Errors
  import opened Varint
  import opened Frames

  /** Every varint the encoder would write for `f` is in range, and `f` is one
      of the seven kinds the encoder dispatches on. */
  predicate Encodable(f: Frame) {
    match f
    case Data(payload) => |payload| <= MaxVarint
    case Headers(_) => true
    case CancelPush(id) => id <= MaxVarint
    case Settings(entries) => SettingsInRange(entries)
    case PushPromise(_, _) => true
    case GoAway(id) => id <= MaxVarint
    case MaxPushId(id) => id <= MaxVarint
    case Other(_) => false
  }

  predicate SettingsInRange(entries: seq<Setting>) {
    forall i :: 0 <= i < |entries| ==> entries[i].key <= MaxVarint && entries[i].value <= MaxVarint
  }

  /** `writeHeaders`: header block encoding is not implemented and writes
      nothing. */
  function WriteHeaders(out: seq<byte>, headers: seq<HeaderField>): (r: seq<byte>)
    ensures r == out
  {
    out
  }

  /** The `frame.forEach` loop of `writeSettingsFrame`: each entry's key, then
      its value, in iteration order. A value out of range raises, and the
      buffer written so far is never sent. */
  function WriteSettings(out: seq<byte>, entries: seq<Setting>): (r: Result<seq<byte>, EncodeError>)
    decreases |entries|
    ensures r.Success? <==> SettingsInRange(entries)
    ensures r.Failure? ==> r.error == IllegalArgument
    ensures r.Success? ==> |r.value| >= |out| + 2 * |entries|
    ensures r.Success? ==> r.value[..|out|] == out
  {
    if entries == [] then Success(out)
    else
      SettingsInRangeCons(entries);
      var withKey :- Write(out, entries[0].key);
      var withValue :- Write(withKey, entries[0].value);
      PrefixOfPrefix(out, withKey, withValue);
      var r := WriteSettings(withValue, entries[1..]);
      if r.Success? then
        PrefixOfPrefix(out, withValue, r.value);
        r
      else r
  }

  lemma PrefixOfPrefix<T>(a: seq<T>, b: seq<T>, c: seq<T>)
    requires |a| <= |b| <= |c| && b[..|a|] == a && c[..|b|] == b
    ensures c[..|a|] == a
  {
    assert c[..|a|] == c[..|b|][..|a|];
  }

  lemma SettingsInRangeCons(entries: seq<Setting>)
    requires entries != []
    ensures SettingsInRange(entries)
        <==> entries[0].key <= MaxVarint && entries[0].value <= MaxVarint && SettingsInRange(entries[1..])
  {
    assert forall i | 0 < i < |entries| :: entries[i] == entries[1..][i - 1];
  }

  /** `write`: dispatch on the message kind, then the matching `write*Frame`.
      The encoding starts with the one-byte varint of the frame's type code; a
      message of any other kind fails with `UnsupportedOperationException`, and
      a value out of varint range with `IllegalArgumentException`, in both
      cases producing no bytes. */
  function Encode(f: Frame): (r: Result<seq<byte>, EncodeError>)
    ensures r.Success? <==> Encodable(f)
    ensures r.Failure? && f.Other? ==> r.error == UnsupportedOperation
    ensures r.Failure? && !f.Other? ==> r.error == IllegalArgument
    ensures r.Success? ==> |r.value| >= 1 && r.value[0] == TypeCode(f) as byte
  {
    if f.Other? then Failure(UnsupportedOperation)
    else
      var typeCode := TypeCode(f);
      var out := Write([], typeCode).value;
      match f
      case Data(payload) =>
        var withLength :- Write(out, |payload|);
        Success(withLength + payload)
      case Headers(headers) =>
        Success(WriteHeaders(out, headers))
      case CancelPush(id) =>
        Write(out, id)
      case Settings(entries) =>
        WriteSettings(out, entries)
      case PushPromise(_, headers) =>
        Success(WriteHeaders(out, headers))
      case GoAway(id) =>
        Write(out, id)
      case MaxPushId(id) =>
        Write(out, id)
  }

  // ---------------------------------------------------------------------------
  // Reference parser for the layout this encoder writes

  /** Reads a body that is exactly one varint. */
  function ParseId(body: seq<byte>): (r: Option<nat>)
    ensures r.Some? ==> r.value <= MaxVarint
  {
    var d :- Decode(body);
    if d.length == |body| then Some(d.value) else None
  }

  /** Reads key/value varint pairs until the body is exhausted. */
  function ParseSettings(body: seq<byte>): (r: Option<seq<Setting>>)
    decreases |body|
  {
    if body == [] then Some([])
    else
      var key :- Decode(body);
      assert 1 <= key.length <= |body|;
      var afterKey := body[key.length..];
      var value :- Decode(afterKey);
      assert 1 <= value.length <= |afterKey|;
      var rest := afterKey[value.length..];
      assert |rest| < |body|;
      var tail :- ParseSettings(rest);
      Some([Setting(key.value, value.value)] + tail)
  }

  /** Parses one whole frame in the layout `Encode` produces: a type varint,
      then the body that type calls for. */
  function ParseFrame(s: seq<byte>): Option<Frame> {
    var t :- Decode(s);
    ParseBody(t.value, s[t.length..])
  }

  /** The body of a frame of type `code`: for DATA a length varint and exactly
      that many payload bytes, for CANCEL_PUSH, GOAWAY and MAX_PUSH_ID one id
      varint, for SETTINGS key/value pairs, and for HEADERS and PUSH_PROMISE
      nothing (no header block is ever written, so none is read back). */
  function ParseBody(code: nat, body: seq<byte>): Option<Frame> {
    if code == 0x0 then
      var length :- Decode(body);
      if |body| - length.length == length.value then Some(Data(body[length.length..])) else None
    else if code == 0x1 then
      if body == [] then Some(Headers([])) else None
    else if code == 0x3 then
      var id :- ParseId(body);
      Some(CancelPush(id))
    else if code == 0x4 then
      var entries :- ParseSettings(body);
      Some(Settings(entries))
    else if code == 0x5 then
      if body == [] then Some(PushPromise(0, [])) else None
    else if code == 0x7 then
      var id :- ParseId(body);
      Some(GoAway(id))
    else if code == 0xd then
      var id :- ParseId(body);
      Some(MaxPushId(id))
    else None
  }

  /** What of a frame survives encoding: header blocks are never written, nor
      is a PUSH_PROMISE's push id. */
  function Erase(f: Frame): Frame {
    match f
    case Headers(_) => Headers([])
    case PushPromise(_, _) => PushPromise(0, [])
    case _ => f
  }

  // ---------------------------------------------------------------------------
  // Layout lemmas

  /** `writeDataFrame`: type 0x0, the payload length as a varint, then the
      payload bytes unchanged. */
  lemma DataLayout(payload: seq<byte>)
    requires |payload| <= MaxVarint
    ensures Encode(Data(payload)) == Success([0x00] + EncodeCanonical(|payload|).value + payload)
  {
    assert BigEndian(0, 1) == [0x00];
  }

  /** `writeCancelPushFrame`, `writeGoAwayFrame`, `writeMaxPushIdFrame`: the
      type code, then the id as a varint, with no Length field. */
  lemma IdFrameLayout(f: Frame)
    requires f.CancelPush? || f.GoAway? || f.MaxPushId?
    requires f.id <= MaxVarint
    ensures Encode(f) == Success([TypeCode(f) as byte] + EncodeCanonical(f.id).value)
  {
    var c := TypeCode(f);
    assert BigEndian(c, 1) == BigEndian(c / 256, 0) + [(c % 256) as byte];
  }

  /** `writeSettingsFrame`: type 0x4, then every entry's key and value as
      varints, with no Length field. */
  lemma SettingsLayout(entries: seq<Setting>)
    requires SettingsInRange(entries)
    ensures Encode(Settings(entries)) == Success([0x04] + SettingsBody(entries))
  {
    assert BigEndian(4, 1) == BigEndian(0, 0) + [4 as byte];
    WriteSettingsAppends([0x04], entries);
  }

  /** `writeHeadersFrame` and `writePushPromiseFrame`: only the type code,
      since `writeHeaders` writes nothing. */
  lemma HeaderFramesAreTypeOnly(f: Frame)
    requires f.Headers? || f.PushPromise?
    ensures Encode(f) == Success([TypeCode(f) as byte])
  {
    var c := TypeCode(f);
    assert BigEndian(c, 1) == BigEndian(c / 256, 0) + [(c % 256) as byte];
  }

  // ---------------------------------------------------------------------------
  // Round trip

  /** One key/value pair in front of a settings body parses as that entry in
      front of whatever the rest parses as. */
  lemma ParseSettingsPair(k: nat, v: nat, tail: seq<byte>)
    requires k <= MaxVarint && v <= MaxVarint
    ensures ParseSettings(EncodeCanonical(k).value + EncodeCanonical(v).value + tail)
         == if ParseSettings(tail).Some? then Some([Setting(k, v)] + ParseSettings(tail).value) else None
  {
    var ek, ev := EncodeCanonical(k).value, EncodeCanonical(v).value;
    var body := ek + ev + tail;
    assert body == ek + (ev + tail);
    CanonicalRoundTrip(k, ev + tail);
    assert body[|ek|..] == ev + tail;
    CanonicalRoundTrip(v, tail);
    assert (ev + tail)[|ev|..] == tail;
  }

  lemma Regroup<T>(a: seq<T>, b: seq<T>, c: seq<T>, d: seq<T>)
    ensures a + b + c + d == a + (b + c + d)
  {
  }

  lemma DropPrefix<T>(a: seq<T>, b: seq<T>)
    ensures (a + b)[|a|..] == b
  {
  }

  /** The bytes the settings loop appends: key then value, entry by entry. */
  ghost function SettingsBody(entries: seq<Setting>): seq<byte>
    requires SettingsInRange(entries)
    decreases |entries|
  {
    if entries == [] then []
    else
      SettingsInRangeCons(entries);
      EncodeCanonical(entries[0].key).value + EncodeCanonical(entries[0].value).value + SettingsBody(entries[1..])
  }

  /** The settings loop appends `SettingsBody` to what was already written. */
  lemma {:induction false} WriteSettingsAppends(out: seq<byte>, entries: seq<Setting>)
    requires SettingsInRange(entries)
    ensures WriteSettings(out, entries) == Success(out + SettingsBody(entries))
    decreases |entries|
  {
    if entries != [] {
      SettingsInRangeCons(entries);
      var ek := EncodeCanonical(entries[0].key).value;
      var ev := EncodeCanonical(entries[0].value).value;
      assert Write(out, entries[0].key).value == out + ek;
      assert Write(out + ek, entries[0].value).value == out + ek + ev;
      assert WriteSettings(out, entries) == WriteSettings(out + ek + ev, entries[1..]);
      WriteSettingsAppends(out + ek + ev, entries[1..]);
      Regroup(out, ek, ev, SettingsBody(entries[1..]));
      assert SettingsBody(entries) == ek + ev + SettingsBody(entries[1..]);
    } else {
      assert out + SettingsBody(entries) == out;
    }
  }

  lemma {:induction false} SettingsBodyRoundTrip(entries: seq<Setting>)
    requires SettingsInRange(entries)
    ensures ParseSettings(SettingsBody(entries)) == Some(entries)
    decreases |entries|
  {
    if entries != [] {
      SettingsInRangeCons(entries);
      SettingsBodyRoundTrip(entries[1..]);
      ParseSettingsPair(entries[0].key, entries[0].value, SettingsBody(entries[1..]));
      assert [entries[0]] + entries[1..] == entries;
    }
  }

  /** A type code below 64 is the single byte in front of the body. */
  lemma TypeByte(c: nat, body: seq<byte>)
    requires c < 64
    ensures EncodeCanonical(c) == Success([c as byte])
    ensures ParseFrame([c as byte] + body) == ParseBody(c, body)
  {
    assert BigEndian(c, 1) == BigEndian(c / 256, 0) + [(c % 256) as byte];
    CanonicalRoundTrip(c, body);
    assert ([c as byte] + body)[1..] == body;
  }

  lemma ParseDataBody(payload: seq<byte>)
    requires |payload| <= MaxVarint
    ensures ParseBody(0, EncodeCanonical(|payload|).value + payload) == Some(Data(payload))
  {
    var len := EncodeCanonical(|payload|).value;
    CanonicalRoundTrip(|payload|, payload);
    DropPrefix(len, payload);
  }

  lemma RoundTripData(payload: seq<byte>)
    requires |payload| <= MaxVarint
    ensures ParseFrame(Encode(Data(payload)).value) == Some(Data(payload))
  {
    var body := EncodeCanonical(|payload|).value + payload;
    var e := Encode(Data(payload)).value;
    assert e == [0x00 as byte] + body by {
      DataLayout(payload);
    }
    assert ParseFrame(e) == ParseBody(0, body) by {
      TypeByte(0, body);
    }
    assert ParseBody(0, body) == Some(Data(payload)) by {
      ParseDataBody(payload);
    }
  }

  lemma ParseIdRoundTrip(id: nat)
    requires id <= MaxVarint
    ensures ParseId(EncodeCanonical(id).value) == Some(id)
  {
    var body := EncodeCanonical(id).value;
    CanonicalRoundTrip(id, []);
    assert body + [] == body;
  }

  lemma RoundTripId(f: Frame)
    requires f.CancelPush? || f.GoAway? || f.MaxPushId?
    requires f.id <= MaxVarint
    ensures ParseFrame(Encode(f).value) == Some(f)
  {
    var c := TypeCode(f);
    var body := EncodeCanonical(f.id).value;
    var e := Encode(f).value;
    assert e == [c as byte] + body by {
      IdFrameLayout(f);
    }
    assert ParseFrame(e) == ParseBody(c, body) by {
      TypeByte(c, body);
    }
    assert ParseBody(c, body) == Some(f) by {
      ParseIdBody(f);
    }
  }

  lemma ParseIdBody(f: Frame)
    requires f.CancelPush? || f.GoAway? || f.MaxPushId?
    requires f.id <= MaxVarint
    ensures ParseBody(TypeCode(f), EncodeCanonical(f.id).value) == Some(f)
  {
    var body := EncodeCanonical(f.id).value;
    ParseIdRoundTrip(f.id);
    match f
    case CancelPush(id) =>
      assert ParseBody(0x3, body) == Some(CancelPush(id));
    case GoAway(id) =>
      assert ParseBody(0x7, body) == Some(GoAway(id));
    case MaxPushId(id) =>
      assert ParseBody(0xd, body) == Some(MaxPushId(id));
  }

  lemma RoundTripSettings(entries: seq<Setting>)
    requires SettingsInRange(entries)
    ensures ParseFrame(Encode(Settings(entries)).value) == Some(Settings(entries))
  {
    SettingsLayout(entries);
    TypeByte(4, SettingsBody(entries));
    SettingsBodyRoundTrip(entries);
  }

  lemma RoundTripHeaderFrame(f: Frame)
    requires f.Headers? || f.PushPromise?
    ensures ParseFrame(Encode(f).value) == Some(Erase(f))
  {
    HeaderFramesAreTypeOnly(f);
    TypeByte(TypeCode(f), []);
    assert [TypeCode(f) as byte] + [] == [TypeCode(f) as byte];
  }

  /** Parsing the encoder's output gives back the frame, less the parts it
      never writes, for every frame the encoder accepts. */
  lemma RoundTripFrame(f: Frame)
    requires Encodable(f)
    ensures ParseFrame(Encode(f).value) == Some(Erase(f))
  {
    match f
    case Data(payload) => RoundTripData(payload);
    case CancelPush(_) => RoundTripId(f);
    case GoAway(_) => RoundTripId(f);
    case MaxPushId(_) => RoundTripId(f);
    case Settings(entries) => RoundTripSettings(entries);
    case Headers(_) => RoundTripHeaderFrame(f);
    case PushPromise(_, _) => RoundTripHeaderFrame(f);
  }

  /** The 1-byte limit of the writer as written reaches the wire: with it
      GOAWAY(64) goes out as 0x07 0x40, whose body announces a 2-byte id that
      is not there. (With the corrected writer `RoundTripId` covers 64 like
      every other id.) */
  lemma GoAwaySixtyFourAsWritten()
    ensures [TypeCode(GoAway(64)) as byte] + Varint.Encode(64).value == [0x07, 0x40]
    ensures ParseFrame([0x07, 0x40]) == None
  {
    SixtyFourMisread();
    var s: seq<byte> := [0x07, 0x40];
    assert TypeCode(GoAway(64)) as byte == 0x07;
    assert [0x07 as byte] + Varint.Encode(64).value == s;
    assert ParseFrame(s) == ParseBody(7, [0x40]) by {
      TypeByte(7, [0x40]);
    }
    assert ParseId([0x40]) == None;
  }
}

=== FILE: frames.dfy ===
/** HTTP/3 frames as the codec's message objects carry them. */
module Frames {
  import opened Varint

  /** The stream kinds a frame class declares itself for, through the marker
      interfaces `Http3RequestStreamFrame`, `Http3ControlStreamFrame` and
      `Http3PushStreamFrame`. */
  datatype StreamType = RequestStream | ControlStream | PushStream

  datatype HeaderField = HeaderField(name: seq<byte>, value: seq<byte>)

  datatype Setting = Setting(key: nat, value: nat)

  /** The seven frame kinds of section 7.2 of RFC 9114 the codec knows, plus
      `Other`: any other message object, described only by the marker
      interfaces its class implements (the empty set for an object that is
      not a frame at all). Settings keep their iteration order. */
  datatype Frame =
    | Data(payload: seq<byte>)
    | Headers(headers: seq<HeaderField>)
    | CancelPush(id: nat)
    | Settings(entries: seq<Setting>)
    | PushPromise(pushId: nat, headers: seq<HeaderField>)
    | GoAway(id: nat)
    | MaxPushId(id: nat)
    | Other(streamTypes: set<StreamType>)

  /** The stream kinds each frame kind is declared for. */
  function StreamTypes(f: Frame): set<StreamType> {
    match f
    case Data(_) => {RequestStream, PushStream}
    case Headers(_) => {RequestStream, PushStream}
    case PushPromise(_, _) => {RequestStream}
    case CancelPush(_) => {ControlStream}
    case Settings(_) => {ControlStream}
    case GoAway(_) => {ControlStream}
    case MaxPushId(_) => {ControlStream}
    case Other(types) => types
  }

  /** The frame type codes of section 7.2 of RFC 9114. Each fits a 1-byte
      varint, so a frame's first byte is its code. */
  function TypeCode(f: Frame): (c: nat)
    requires !f.Other?
    ensures c < 64
    ensures c in {0x0, 0x1, 0x3, 0x4, 0x5, 0x7, 0xd}
  {
    match f
    case Data(_) => 0x0
    case Headers(_) => 0x1
    case CancelPush(_) => 0x3
    case Settings(_) => 0x4
    case PushPromise(_, _) => 0x5
    case GoAway(_) => 0x7
    case MaxPushId(_) => 0xd
  }

  /** The code of each kind, as the encoder writes it. */
  lemma TypeCodeTable()
    ensures forall payload :: TypeCode(Data(payload)) == 0x0
    ensures forall headers :: TypeCode(Headers(headers)) == 0x1
    ensures forall id :: TypeCode(CancelPush(id)) == 0x3
    ensures forall entries :: TypeCode(Settings(entries)) == 0x4
    ensures forall id, headers :: TypeCode(PushPromise(id, headers)) == 0x5
    ensures forall id :: TypeCode(GoAway(id)) == 0x7
    ensures forall id :: TypeCode(MaxPushId(id)) == 0xd
  {
  }

  /** The code identifies the kind: two known frames share a code exactly
      when they are of the same kind, so a receiver can tell them apart from
      the first byte. */
  lemma TypeCodeIdentifiesKind(f: Frame, g: Frame)
    requires !f.Other? && !g.Other?
    ensures TypeCode(f) == TypeCode(g) <==>
      && f.Data? == g.Data? && f.Headers? == g.Headers?
      && f.CancelPush? == g.CancelPush? && f.Settings? == g.Settings?
      && f.PushPromise? == g.PushPromise? && f.GoAway? == g.GoAway?
      && f.MaxPushId? == g.MaxPushId?
  {
  }
}

=== FILE: type_validation.dfy ===
/** The generic inbound frame-type gate (`Http3FrameTypeValidationHandler`):
    constructed with one frame interface, it passes every frame that
    implements it unchanged and rejects every other frame. */
module TypeValidation {
  import opened Wrappers
  import opened Http3Errors
  import opened Frames

  /** The gate's only configuration: the stream kind whose frames it admits,
      fixed at construction. */
  datatype Gate = Gate(expected: StreamType)

  /** One inbound frame through the gate: the same frame when its class
      implements the expected interface, otherwise `H3_FRAME_UNEXPECTED`. */
  function Validate(g: Gate, f: Frame): (r: Result<Frame, H3ErrorCode>)
    ensures r.Success? ==> r.value == f
    ensures r.Failure? ==> r.error == FrameUnexpected
  {
    if g.expected in StreamTypes(f) then Success(f) else Failure(FrameUnexpected)
  }

  /** The verdict depends on nothing but the frame's declared stream kinds:
      two frames declared for the same kinds get the same verdict, whatever
      their contents. */
  lemma VerdictDependsOnlyOnKinds(g: Gate, f1: Frame, f2: Frame)
    requires StreamTypes(f1) == StreamTypes(f2)
    ensures Validate(g, f1).Success? <==> Validate(g, f2).Success?
  {
  }

  /** A gate for request-stream frames admits DATA, HEADERS, PUSH_PROMISE
      and any other request-stream frame, and rejects control-stream and
      push-stream-only frames. */
  lemma RequestStreamGate(f: Frame)
    ensures Validate(Gate(RequestStream), f).Success?
        <==> f.Data? || f.Headers? || f.PushPromise? || (f.Other? && RequestStream in f.streamTypes)
    ensures Validate(Gate(RequestStream), Other({RequestStream})) == Success(Other({RequestStream}))
    ensures Validate(Gate(RequestStream), Other({ControlStream})) == Failure(FrameUnexpected)
    ensures Validate(Gate(RequestStream), Other({PushStream})) == Failure(FrameUnexpected)
  {
  }

  /** A gate for control-stream frames admits exactly SETTINGS, GOAWAY,
      MAX_PUSH_ID, CANCEL_PUSH and other control-stream frames. */
  lemma ControlStreamGate(f: Frame)
    ensures Validate(Gate(ControlStream), f).Success?
        <==> f.Settings? || f.GoAway? || f.MaxPushId? || f.CancelPush? || (f.Other? && ControlStream in f.streamTypes)
  {
  }
}

=== FILE: varint.dfy ===
/** QUIC variable-length integers (section 16 of RFC 9000) as the HTTP/3
    frame encoder writes them, and a reference decoder for the same format.

    A varint is 1, 2, 4 or 8 bytes long. The two most significant bits of its
    first byte give the width (00, 01, 10, 11) and the remaining 8w-2 bits hold
    the value big-endian. */
module Varint {
  import opened Wrappers
  import opened Http3Errors

  newtype byte = x: int | 0 <= x < 256

  /** The largest value a varint carries: 2^62 - 1. */
  const MaxVarint: nat := 4611686018427387903

  function Pow256(n: nat): nat {
    if n == 0 then 1 else 256 * Pow256(n - 1)
  }

  function Pow2(n: nat): nat {
    if n == 0 then 1 else 2 * Pow2(n - 1)
  }

  predicate IsWidth(w: nat) {
    w == 1 || w == 2 || w == 4 || w == 8
  }

  /** 2^(8w-2): one more than the largest value a w-byte varint holds. */
  function Capacity(w: nat): nat
    requires IsWidth(w)
  {
    if w == 1 then 64
    else if w == 2 then 16384
    else if w == 4 then 1073741824
    else 4611686018427387904
  }

  /** `v` fits in the 8w-2 value bits a w-byte varint leaves after its prefix. */
  predicate FitsIn(v: nat, w: nat)
    requires IsWidth(w)
  {
    v < Capacity(w)
  }

  lemma CapacityIsPower(w: nat)
    requires IsWidth(w)
    ensures Capacity(w) == 64 * Pow256(w - 1)
  {
    assert Pow256(1) == 256;
    assert Pow256(3) == 16777216 by {
      assert Pow256(2) == 65536;
    }
    assert Pow256(7) == 72057594037927936 by {
      assert Pow256(3) == 16777216 by {
        assert Pow256(2) == 65536;
      }
      assert Pow256(5) == 1099511627776 by {
        assert Pow256(4) == 4294967296;
      }
      assert Pow256(6) == 281474976710656;
    }
  }

  /** `w` is the shortest width whose value bits hold `v`. */
  predicate IsMinimalWidth(v: nat, w: nat) {
    && IsWidth(w)
    && FitsIn(v, w)
    && (w > 1 ==> !FitsIn(v, 1))
    && (w > 2 ==> !FitsIn(v, 2))
    && (w > 4 ==> !FitsIn(v, 4))
  }

  /** The two prefix bits that announce a width, as a number 0..3. */
  function PrefixIndex(w: nat): byte
    requires IsWidth(w)
  {
    if w == 1 then 0 else if w == 2 then 1 else if w == 4 then 2 else 3
  }

  /** The prefix bits in place in the first byte. */
  function PrefixMask(w: nat): byte
    requires IsWidth(w)
  {
    if w == 1 then 0x00 else if w == 2 then 0x40 else if w == 4 then 0x80 else 0xc0
  }

  /** The width a prefix announces; `p` is the first byte shifted right by 6. */
  function WidthOfPrefix(p: byte): (w: nat)
    ensures IsWidth(w)
  {
    if p == 0 then 1 else if p == 1 then 2 else if p == 2 then 4 else 8
  }

  // ---------------------------------------------------------------------------
  // Big-endian byte strings

  /** The low `n` bytes of `v`, most significant first: what a Java narrowing
      cast followed by `writeByte`, `writeShort`, `writeInt` or `writeLong`
      stores. */
  function BigEndian(v: nat, n: nat): (r: seq<byte>)
    ensures |r| == n
  {
    if n == 0 then [] else BigEndian(v / 256, n - 1) + [(v % 256) as byte]
  }

  /** The number a big-endian byte string denotes. */
  function FromBigEndian(s: seq<byte>): nat {
    if |s| == 0 then 0 else FromBigEndian(s[..|s| - 1]) * 256 + s[|s| - 1] as nat
  }

  lemma {:induction false} FromBigEndianOfBigEndian(v: nat, n: nat)
    requires v < Pow256(n)
    ensures FromBigEndian(BigEndian(v, n)) == v
  {
    if n > 0 {
      var b := BigEndian(v, n);
      var q, r := v / 256, v % 256;
      assert b == BigEndian(q, n - 1) + [r as byte];
      assert b[..n - 1] == BigEndian(q, n - 1);
      FromBigEndianOfBigEndian(q, n - 1);
      assert FromBigEndian(b) == q * 256 + r;
    }
  }

  lemma {:induction false} BigEndianOfFromBigEndian(s: seq<byte>)
    ensures BigEndian(FromBigEndian(s), |s|) == s
  {
    if |s| > 0 {
      var init, last := s[..|s| - 1], s[|s| - 1];
      var v := FromBigEndian(s);
      assert v == FromBigEndian(init) * 256 + last as nat;
      assert v / 256 == FromBigEndian(init) && v % 256 == last as nat;
      BigEndianOfFromBigEndian(init);
      assert s == init + [last];
    }
  }

  /** A big-endian string whose leading byte is below 64 denotes a number that
      fits in the value bits of a varint of that length. */
  lemma {:induction false} FromBigEndianBound(s: seq<byte>)
    requires |s| >= 1 && s[0] < 64
    ensures FromBigEndian(s) < 64 * Pow256(|s| - 1)
  {
    if |s| > 1 {
      var init := s[..|s| - 1];
      assert init[0] == s[0];
      FromBigEndianBound(init);
    }
  }

  /** A value that fits the varint value bits has a leading byte below 64, so
      OR-ing the prefix into it loses nothing. */
  lemma {:induction false} BigEndianLeadingByte(v: nat, n: nat)
    requires n >= 1 && v < 64 * Pow256(n - 1)
    ensures BigEndian(v, n)[0] < 64
  {
    if n > 1 {
      assert 64 * Pow256(n - 1) == 256 * (64 * Pow256(n - 2));
      BigEndianLeadingByte(v / 256, n - 1);
    }
  }

  // ---------------------------------------------------------------------------
  // Bitwise OR

  /** Bitwise OR of two naturals, taken bit by bit from the least significant
      end. */
  function BitOr(a: nat, b: nat): nat
    decreases a + b
  {
    if a == 0 then b
    else if b == 0 then a
    else 2 * BitOr(a / 2, b / 2) + (if a % 2 == 1 || b % 2 == 1 then 1 else 0)
  }

  lemma {:induction false} BitOrBound(a: nat, b: nat, n: nat)
    requires a < Pow2(n) && b < Pow2(n)
    ensures BitOr(a, b) < Pow2(n)
  {
    if n > 0 && a != 0 && b != 0 {
      BitOrBound(a / 2, b / 2, n - 1);
    }
  }

  /** OR-ing a number into bits that are all clear in it is addition. */
  lemma {:induction false} BitOrDisjoint(a: nat, k: nat, n: nat)
    requires a < Pow2(n)
    ensures BitOr(a, k * Pow2(n)) == a + k * Pow2(n)
  {
    if n > 0 && a != 0 && k != 0 {
      var m := k * Pow2(n - 1);
      assert k * Pow2(n) == 2 * m;
      assert (2 * m) / 2 == m && (2 * m) % 2 == 0;
      BitOrDisjoint(a / 2, k, n - 1);
    }
  }

  /** Java's `|` on two bytes. */
  function OrByte(a: byte, b: byte): (r: byte)
  {
    assert Pow2(8) == 256;
    BitOrBound(a as nat, b as nat, 8);
    BitOr(a as nat, b as nat) as byte
  }

  /** OR-ing a width's prefix into a leading byte below 64 sets the top two
      bits to the prefix and keeps the low six. */
  lemma PrefixBits(b: byte, w: nat)
    requires IsWidth(w) && b < 64
    ensures OrByte(b, PrefixMask(w)) / 64 == PrefixIndex(w)
    ensures OrByte(b, PrefixMask(w)) % 64 == b
  {
    var k := PrefixIndex(w) as nat;
    assert Pow2(6) == 64;
    BitOrDisjoint(b as nat, k, 6);
    assert k * 64 == PrefixMask(w) as nat;
    var r := OrByte(b, PrefixMask(w));
    assert r as nat == b as nat + k * 64;
    assert (b as nat + k * 64) / 64 == k && (b as nat + k * 64) % 64 == b as nat by {
      assert k == 0 || k == 1 || k == 2 || k == 3;
    }
  }

  lemma SplitPrefix(p: byte)
    ensures OrByte(p % 64, PrefixMask(WidthOfPrefix(p / 64))) == p
    ensures p / 64 == PrefixIndex(WidthOfPrefix(p / 64))
  {
    PrefixBits(p % 64, WidthOfPrefix(p / 64));
  }

  // ---------------------------------------------------------------------------
  // The encoder, as written

  /** `numBytesForVariableLengthInteger`: the width the encoder picks. Its
      1-byte branch admits values up to 64, one more than the 6 value bits of
      a 1-byte varint hold; every other value gets its minimal width. */
  function NumBytes(v: nat): (r: Result<nat, EncodeError>)
    ensures r.Success? <==> v <= MaxVarint
    ensures r.Failure? ==> r.error == IllegalArgument
    ensures r.Success? ==> IsWidth(r.value)
    ensures r.Success? && v != 64 ==> IsMinimalWidth(v, r.value)
    ensures v == 64 ==> r == Success(1) && !FitsIn(v, 1)
  {
    if v <= 64 then Success(1)
    else if v <= 16383 then Success(2)
    else if v <= 1073741823 then Success(4)
    else if v <= 4611686018427387903 then Success(8)
    else Failure(IllegalArgument)
  }

  /** The `switch` of `writeVariableLengthInteger` for a chosen width: the
      value's low `w` bytes big-endian, then the width prefix OR-ed into the
      first byte (the 1-byte case ORs nothing). When the value fits the width,
      the first byte carries the width's prefix and the bytes without it are
      the value. */
  function EncodeWidth(v: nat, w: nat): (r: seq<byte>)
    requires IsWidth(w)
    ensures |r| == w
    ensures FitsIn(v, w) ==> r[0] / 64 == PrefixIndex(w)
    ensures FitsIn(v, w) ==> [r[0] % 64] + r[1..] == BigEndian(v, w)
    ensures FitsIn(v, w) ==> FromBigEndian([r[0] % 64] + r[1..]) == v
  {
    var b := BigEndian(v, w);
    var r := if w == 1 then b else [OrByte(b[0], PrefixMask(w))] + b[1..];
    assert FitsIn(v, w) ==>
      r[0] / 64 == PrefixIndex(w) && [r[0] % 64] + r[1..] == b && FromBigEndian(b) == v
    by {
      if FitsIn(v, w) {
        CapacityIsPower(w);
        BigEndianLeadingByte(v, w);
        PrefixBits(b[0], w);
        FromBigEndianOfBigEndian(v, w);
        assert b == [b[0]] + b[1..];
      }
    }
    r
  }

  /** The bytes `writeVariableLengthInteger` emits for `v`; values above
      2^62 - 1 raise `IllegalArgumentException` and emit nothing. */
  function Encode(v: nat): (r: Result<seq<byte>, EncodeError>)
    ensures r.Success? <==> v <= MaxVarint
    ensures r.Failure? ==> r.error == IllegalArgument
    ensures r.Success? ==> |r.value| == NumBytes(v).value
  {
    var w :- NumBytes(v);
    var e := EncodeWidth(v, w);
    assert w > 1 ==> FitsIn(v, w);
    Success(e)
  }

  /** Bit layout of what the encoder writes: for every value but 64 the top
      two bits of the first byte announce the width the encoder chose (01, 10
      and 11 for 2, 4 and 8 bytes) and the remaining bits are the value
      big-endian. */
  lemma EncodeLayout(v: nat)
    requires v <= MaxVarint && v != 64
    ensures Encode(v).value[0] / 64 == PrefixIndex(NumBytes(v).value)
    ensures FromBigEndian([Encode(v).value[0] % 64] + Encode(v).value[1..]) == v
  {
  }

  /** `writeVariableLengthInteger(out, v)` with the 1-byte limit corrected to
      63 (see `EncodeCanonical`): appends the minimal-width encoding of `v`
      and leaves the bytes already in `out` as they were. The frame encoder
      writes every varint through it. */
  function Write(out: seq<byte>, v: nat): (r: Result<seq<byte>, EncodeError>)
    ensures r.Success? <==> v <= MaxVarint
    ensures r.Failure? ==> r.error == IllegalArgument
    ensures r.Success? ==> |r.value| > |out| && IsMinimalWidth(v, |r.value| - |out|)
    ensures r.Success? ==> r.value[..|out|] == out
    ensures r.Success? ==> r.value[|out|..] == EncodeCanonical(v).value
  {
    var e :- EncodeCanonical(v);
    Success(out + e)
  }

  // ---------------------------------------------------------------------------
  // Reference decoder (section 16 of RFC 9000)

  datatype Decoded = Decoded(value: nat, length: nat)

  /** Reads one varint from the front of `s`: the width from the top two bits
      of the first byte, then the value big-endian with those bits masked off.
      None when `s` is shorter than the announced width. */
  function Decode(s: seq<byte>): (r: Option<Decoded>)
    ensures r.Some? ==> IsWidth(r.value.length) && r.value.length <= |s|
    ensures r.Some? ==> FitsIn(r.value.value, r.value.length) && r.value.value <= MaxVarint
    ensures r.None? ==> |s| < 8
  {
    if |s| == 0 then None
    else
      var w := WidthOfPrefix(s[0] / 64);
      if |s| < w then None
      else
        var payload := [s[0] % 64] + s[1..w];
        FromBigEndianBound(payload);
        CapacityIsPower(w);
        Some(Decoded(FromBigEndian(payload), w))
  }

  /** Decoding inverts encoding at every width the value fits in, whatever
      follows the encoding. */
  lemma DecodeEncodeWidth(v: nat, w: nat, rest: seq<byte>)
    requires IsWidth(w) && FitsIn(v, w)
    ensures Decode(EncodeWidth(v, w) + rest) == Some(Decoded(v, w))
  {
    var e := EncodeWidth(v, w);
    var s := e + rest;
    assert s[0] == e[0];
    assert s[1..w] == e[1..];
  }

  /** And encoding inverts decoding: every string the decoder accepts is the
      encoding of the value it reads, at the width it reads. */
  lemma EncodeWidthDecode(s: seq<byte>)
    requires Decode(s).Some?
    ensures EncodeWidth(Decode(s).value.value, Decode(s).value.length) == s[..Decode(s).value.length]
  {
    var d := Decode(s).value;
    var w := d.length;
    var payload := [s[0] % 64] + s[1..w];
    assert |payload| == w;
    var b := BigEndian(d.value, w);
    assert b == payload by {
      BigEndianOfFromBigEndian(payload);
    }
    assert b[0] == s[0] % 64 && b[1..] == s[1..w];
    assert (if w == 1 then s[0] % 64 else OrByte(s[0] % 64, PrefixMask(w))) == s[0] by {
      SplitPrefix(s[0]);
    }
    assert s[..w] == [s[0]] + s[1..w];
  }

  /** Round trip of the encoder as written: every value it accepts other than
      64 decodes back to itself, at the width it was written with. */
  lemma RoundTrip(v: nat, rest: seq<byte>)
    requires v <= MaxVarint && v != 64
    ensures Decode(Encode(v).value + rest) == Some(Decoded(v, NumBytes(v).value))
  {
    DecodeEncodeWidth(v, NumBytes(v).value, rest);
  }

  /** At 64 the encoder emits the single byte 0x40, whose top bits announce a
      2-byte varint: alone it is truncated, and followed by a zero byte it
      reads as 0. */
  lemma SixtyFourMisread()
    ensures Encode(64) == Success([0x40])
    ensures Decode([0x40]) == None
    ensures Decode([0x40, 0x00]) == Some(Decoded(0, 2))
  {
    assert BigEndian(64, 1) == [0x40];
    var s: seq<byte> := [0x40, 0x00];
    assert WidthOfPrefix(s[0] / 64) == 2;
    assert [s[0] % 64] + s[1..2] == [0x00, 0x00];
    assert FromBigEndian([0x00, 0x00]) == 0 by {
      assert [0x00 as byte, 0x00][..1] == [0x00];
    }
  }

  /** What a decoder makes of the encoding of 64 with anything after it: the
      byte 0x40 opens a 2-byte varint whose value bits are all zero, so the
      next byte is swallowed and read as the value. The result is 64 only
      when that byte happens to be 0x40, and the encoding's own width of 1 is
      never read back. */
  lemma SixtyFourNeverRoundTrips(rest: seq<byte>)
    ensures Decode(Encode(64).value + rest)
         == if rest == [] then None else Some(Decoded(rest[0] as nat, 2))
    ensures Decode(Encode(64).value + rest) != Some(Decoded(64, 1))
  {
    SixtyFourMisread();
    var s := Encode(64).value + rest;
    assert s[0] == 0x40;
    assert WidthOfPrefix(s[0] / 64) == 2;
    if rest != [] {
      var payload := [s[0] % 64] + s[1..2];
      assert payload == [0x00, rest[0]];
      assert FromBigEndian(payload) == rest[0] as nat by {
        assert payload[..1] == [0x00];
        assert [0x00 as byte][..0] == [];
      }
    }
  }

  // ---------------------------------------------------------------------------
  // The encoder with the 1-byte limit of section 16 of RFC 9000

  /** The width table of section 16 of RFC 9000: 63 is the largest 1-byte
      value. */
  function NumBytesCanonical(v: nat): (r: Result<nat, EncodeError>)
    ensures r.Success? <==> v <= MaxVarint
    ensures r.Failure? ==> r.error == IllegalArgument
    ensures r.Success? ==> IsMinimalWidth(v, r.value)
  {
    if v <= 63 then Success(1)
    else if v <= 16383 then Success(2)
    else if v <= 1073741823 then Success(4)
    else if v <= 4611686018427387903 then Success(8)
    else Failure(IllegalArgument)
  }

  function EncodeCanonical(v: nat): (r: Result<seq<byte>, EncodeError>)
    ensures r.Success? <==> v <= MaxVarint
    ensures r.Failure? ==> r.error == IllegalArgument
    ensures r.Success? ==> IsMinimalWidth(v, |r.value|)
  {
    var w :- NumBytesCanonical(v);
    Success(EncodeWidth(v, w))
  }

  /** The corrected encoder round-trips on the whole varint range. */
  lemma CanonicalRoundTrip(v: nat, rest: seq<byte>)
    requires v <= MaxVarint
    ensures Decode(EncodeCanonical(v).value + rest) == Some(Decoded(v, |EncodeCanonical(v).value|))
  {
    DecodeEncodeWidth(v, NumBytesCanonical(v).value, rest);
  }

  /** The corrected encoder and the one as written differ only at 64. */
  lemma CanonicalAgreesExceptSixtyFour(v: nat)
    ensures v != 64 ==> EncodeCanonical(v) == Encode(v)
    ensures EncodeCanonical(64) == Success([0x40, 0x40])
    ensures Encode(64) != EncodeCanonical(64)
  {
    assert BigEndian(0, 1) == [0x00];
    assert BigEndian(64, 2) == [0x00, 0x40];
    assert EncodeWidth(64, 2) == [0x40, 0x40];
    SixtyFourMisread();
  }
}

=== FILE: wrappers.dfy ===
/** Failure-compatible Option and Result, usable with `:-`. */
module Wrappers {

  datatype Option<+T> = None | Some(value: T) {
    predicate IsFailure() {
      None?
    }

    function PropagateFailure<U>(): Option<U>
      requires None?
    {
      None
    }

    function Extract(): T
      requires Some?
    {
      value
    }
  }

  datatype Result<+R, +E> = Success(value: R) | Failure(error: E) {
    predicate IsFailure() {
      Failure?
    }

    function PropagateFailure<U>(): Result<U, E>
      requires Failure?
    {
      Failure(error)
    }

    function Extract(): R
      requires Success?
    {
      value
    }
  }
}
